=== FILE: README.md ===
# ciphercanvas: configuration-to-export decisions, in Dafny

ciphercanvas turns a WiFi network's credentials into a QR code and exports it as SVG or
PNG. The visual settings come from a TOML configuration file. This project models the
decisions the program makes between the parsed configuration and the file it writes:

- **Typed configuration lookup** (`src/get_config.rs`), in module `Config`. The parsed
  TOML document is a `Value` tree. `GetConfigStr` and `GetConfigInt` read
  `doc[section][key]`. Each returns a tagged `Lookup`: `Found(v)`, `Defaulted(d, diagnostic)`
  or `Failed`. The two functions treat a present value of the wrong type differently. The
  string lookup fails, because `get_config_str` panics. The integer lookup falls back to the
  default, exactly as if the key were missing.
- **WiFi payload** (`src/main.rs`), in module `Wifi`. It covers the `Encryption` tokens
  (`WPA`, `WEP`, `nopass`), which are upper-cased before use, and the string
  `WIFI:S:<ssid>;T:<TOKEN>;P:<password>;;`. `ParsePayload` reads a payload back and
  serves as the partner for stating what the payload preserves.
- **Resolution in `main`** (`src/main.rs:82-117`), in module `Pipeline`. It covers the
  `Consts` defaults, the `i64 as u32` narrowing of the size, the `< 256` size warning, and
  the password, which has no default. `Run` then chains QR generation and `save_image`.
  The QR library is a parameter: an encoder that may fail and a drawing step that cannot.
  `save_image` is the pure plan below.
- **Export dispatch** (`src/image_ops.rs`, `save_image`), in module `ImageOps`. It is a
  pure planning function returning an `ExportAction`: `Unsupported(format)`,
  `WriteSvg(path, bytes)`, `RasterPng(path, pixmap, warned)` or `PixmapFailed(path, warned)`. The path's extension is
  replaced by the format, following the rules of Rust's `Path::with_extension`. The SVG
  bytes are the UTF-8 encoding of the image (module `Utf8`). The raster is `size × size`,
  and a zero size fails because `Pixmap::new` refuses it.

Diagnostics at warning and error level are returned as a list of `Diagnostic` records
instead of going to a logger. Integer widths are explicit subset types: `i64` for TOML
integers, `u32` for sizes and `byte` for bytes.

Points where the code's behaviour is easy to misread, each stated by a member:

- `get_config_str` panics for every string setting. A non-string `colors.foreground`
  therefore aborts the run, even though the colour is cosmetic (`StringSettingMismatchPanics`
  for resolution, `StringSettingMismatchAbortsRun` for the whole run).
- A missing password panics with "index not found". A non-string password is returned as
  an error (`PasswordRule`).
- The format is checked only inside `save_image`, after the QR code has been generated.
  The check still happens before any file is touched (`RunExportsIffSupported`).

Behaviour of the code that the model keeps as written:

- The size is narrowed modulo 2^32. A configured `-1` becomes 4294967295, with no
  warning. A configured 4294967296 becomes 0 (`NarrowingExamples`, `SizeWarning`). A PNG
  export at size 0 then fails when the pixmap is allocated (`ZeroSizePngFails`).
- SSID and password are inserted without escaping, so a `;T:…;P:` segment can move
  between them without changing the payload (`UnescapedPayloadIsAmbiguous`).
- The two size warnings use different thresholds: `main` warns below 256, while the PNG
  exporter warns at 256 and below (`PngWarnings`).

## Model

| member | source | states |
|---|---|---|
| Config.Get | src/get_config.rs:22 | a key yields a value iff the value is a table holding that key, and it is the entry stored there; any other value has no entries |
| Config.At | src/get_config.rs:22 | a value is found iff the document is a table with a table at `section` that holds `key`, and it is the value stored there |
| Config.GetConfigStr | src/get_config.rs:16-37 | the value is found iff a string is stored at `section.key`, and it is exactly that string; the default is returned, with one `MissingString` diagnostic naming the path and the default, iff nothing is stored there; any other stored value fails and never yields the default |
| Config.GetConfigInt | src/get_config.rs:51-63 | never fails; found iff an integer is stored at `section.key`, and it is exactly that integer; otherwise the default is returned with one `MissingInteger` diagnostic, whether the key is missing or holds another type |
| Config.MismatchPolicies | src/get_config.rs:22-62 | for a stored boolean or table, the string lookup fails while the integer lookup returns the default with its diagnostic: the two policies are opposite |
| Config.StrFoundIgnoresDefault | src/get_config.rs:70-80 | a stored string is returned regardless of the default |
| Config.StrNotFoundUsesDefault | src/get_config.rs:83-93 | a missing key with other keys present yields the default and one diagnostic |
| Config.StrWrongTypeFails | src/get_config.rs:147-158 | an integer where a string is expected fails |
| Config.IntFoundIgnoresDefault | src/get_config.rs:109-119 | a stored integer is returned regardless of the default |
| Config.IntNotFoundUsesDefault | src/get_config.rs:122-132 | a missing integer key yields the default and one diagnostic |
| Utf8.EncodeChar | src/image_ops.rs:77 | each character takes one to four bytes, every byte after the first being a continuation byte, and a single byte exactly for ASCII |
| Utf8.Encode | src/image_ops.rs:77 | a string of n characters takes between n and 4n bytes |
| Utf8.DecodeEncodeChar | src/image_ops.rs:77 | the encoding of a character, followed by anything, decodes back to that character and its length |
| Utf8.DecodeTwoBytes | src/image_ops.rs:77 | the two-byte form decodes back to its character |
| Utf8.DecodeThreeBytes | src/image_ops.rs:77 | the three-byte form decodes back to its character |
| Utf8.DecodeFourBytes | src/image_ops.rs:77 | the four-byte form decodes back to its character |
| Utf8.DecodeEncode | src/image_ops.rs:77 | the bytes of a string decode back to exactly that string |
| Utf8.EncodeInjective | src/image_ops.rs:88 | different SVG documents never hand the same bytes to the writer or rasteriser |
| Wifi.Token | src/main.rs:48-57 | each `Display` token is non-empty and has no `;`; `WPA` and `WEP` are already upper case and `nopass` is not |
| Wifi.UpperChar | src/main.rs:100 | lower-case ASCII letters map to upper case; every other character is unchanged |
| Wifi.ToUpper | src/main.rs:100 | upper-casing keeps the length and leaves no lower-case ASCII letter; each lower-case letter becomes its capital, every other character stays as it is, and a string without lower-case letters is unchanged |
| Wifi.ToUpperIdempotent | src/main.rs:100 | upper-casing twice equals upper-casing once |
| Wifi.WireToken | src/main.rs:48-57 | the token in the payload contains no `;`, and it is `NOPASS` exactly for the unencrypted network |
| Wifi.WireTokenRoundTrip | src/main.rs:50-54 | a token parses to an encryption iff it is that encryption's upper-cased token, so the three tokens are distinct |
| Wifi.Payload | src/main.rs:97-102 | the payload is, position by position, `WIFI:S:`, the SSID verbatim, `;T:`, the upper-cased token, `;P:`, the password verbatim and `;;`, whatever the SSID and password contain |
| Wifi.ParsePayloadRoundTrip | src/main.rs:97-102 | if the SSID has no `;`, the payload reads back to exactly its SSID, encryption and password, whatever the password contains |
| Wifi.ParseComposed | src/main.rs:97-98 | a composed payload with a `;`-free SSID and a recognised token reads back to its parts |
| Wifi.ParseSecurityOf | src/main.rs:98-100 | the `T:<token>;P:<password>;;` part reads back to the encryption and password |
| Wifi.ParsePasswordRoundTrip | src/main.rs:98-101 | the `P:<password>;;` part reads back to the password |
| Wifi.ComposeShift | src/main.rs:97-102 | moving a security field between the end of the SSID and the start of the password leaves the composed text unchanged |
| Wifi.UnescapedPayloadIsAmbiguous | src/main.rs:97-102 | without escaping, two different credential triples give the same payload, and a reader recovers the one whose SSID has no `;` |
| Wifi.PayloadExampleWpa | src/main.rs:97-102 | `("MyNet", WPA, "secret")` gives `WIFI:S:MyNet;T:WPA;P:secret;;` |
| Wifi.PayloadExampleOpen | src/main.rs:97-102 | an unencrypted network with an empty password gives `WIFI:S:Cafe;T:NOPASS;P:;;` |
| ImageOps.Stem | src/image_ops.rs:64 | the stem is a prefix of the name, non-empty for a non-empty name; it is the whole name exactly when no `.` follows the first character, and otherwise it ends just before the last `.` |
| ImageOps.Extension | src/image_ops.rs:64 | there is no extension exactly when no `.` follows the first character; an extension contains no `.`, so it is what follows the last one |
| ImageOps.StemAndExtensionSplitName | src/image_ops.rs:64 | a file name is its stem, followed by `.` and its extension when it has one |
| ImageOps.WithExtension | src/image_ops.rs:64 | the directory is kept, and a path without a file name is left without one |
| ImageOps.WithExtensionReplaces | src/image_ops.rs:64 | for a non-empty, dot-free format, the new name keeps the old stem and has exactly the format as its extension |
| ImageOps.WithExtensionIdempotent | src/image_ops.rs:64 | rewriting to the same extension twice equals rewriting once |
| ImageOps.StemExamples | src/image_ops.rs:64 | the stem of `qr.tar.gz` is `qr.tar` (cut at the last `.`), and `qr` and the hidden name `.qr` are their own stems |
| ImageOps.WithExtensionExamples | src/image_ops.rs:64 | `qr.tar.gz` becomes `qr.tar.png`, `qr` becomes `qr.svg`, `.qr` becomes `.qr.svg`, and `/` is unchanged |
| ImageOps.LoadSvg | src/image_ops.rs:12-33 | a pixmap is produced iff the size is not zero, and it is `size` pixels wide and `size` pixels high |
| ImageOps.SaveImage | src/image_ops.rs:57-101 | a format outside {svg, png} yields `Unsupported(format)` and no file action; otherwise the target is the output path with its extension replaced by the format; svg writes bytes that decode to exactly the image; png plans a `size × size` raster when the size is not zero and a pixmap failure when it is zero, and in both cases warns iff `size <= 256`; the catch-all arm is unreachable |
| ImageOps.FormatIsCaseSensitive | src/image_ops.rs:58-68 | `SVG` and `jpg` are refused |
| Pipeline.AsU32 | src/main.rs:83 | the narrowed size is congruent to the configured integer modulo 2^32; it is unchanged on [0, 2^32) and is the value plus 2^32 on [-2^32, 0) |
| Pipeline.NarrowingExamples | src/main.rs:83 | 2^32 + 100 narrows to 100, -1 to 4294967295, and 2^32 to 0 |
| Pipeline.ResolveSettings | src/main.rs:82-90 | resolution succeeds iff none of export, foreground and background holds a non-string, and otherwise panics naming one of those three paths; each string setting is the stored string or, when absent, its `Consts` default; the size is the stored integer (or 512) narrowed to 32 bits; the log holds, in order, one diagnostic per absent string key, one for a size that is not an integer, the size warning iff the size is below 256, and nothing else |
| Pipeline.Prepare | src/main.rs:82-102 | a successful preparation carries the resolved settings, used the string stored at `qrcode.password`; its payload reads back to the SSID, encryption and that password when the SSID has no `;`; the only errors are a wrong-typed setting, a missing password (panic) or a non-string password; a panic during resolution is passed on unchanged |
| Pipeline.ResolveDefaults | src/main.rs:82-90 | with none of the optional keys present, resolution yields the `Consts` values (`svg`, 512, `#ffffff`, `#000000`) and one diagnostic per missing key, in lookup order |
| Pipeline.PrepareDefaults | src/main.rs:82-90 | with the optional keys missing, the settings are `svg`, 512, `#ffffff` and `#000000`, with exactly four diagnostics naming each path and default |
| Pipeline.ResolveConfigured | src/main.rs:82-90 | with every optional key present and of the right type, resolution returns exactly the configured values (the size narrowed to 32 bits) and logs nothing but the size warning when the narrowed size is below 256 |
| Pipeline.PrepareConfigured | src/main.rs:82-102 | with every key present and well typed, the configured values are used, and the only diagnostic is the size warning when the narrowed size is below 256 |
| Pipeline.PrepareConfiguredColoursMissing | src/main.rs:82-102 | with no `[colors]` entries, the colours default with one diagnostic each, and the rest is configured |
| Pipeline.PasswordRule | src/main.rs:92-94 | once the settings resolve: a missing password panics, a non-string password is an error, and a string password is the one placed in the payload, whatever the size |
| Pipeline.StringSettingMismatchPanics | src/main.rs:82-90 | a non-string export format, foreground or background panics, naming that path |
| Pipeline.SizeMismatchDefaults | src/main.rs:83 | a non-integer size never causes a panic: success depends on the string settings alone; the size becomes 512, and a `MissingInteger` diagnostic is logged once the format has resolved |
| Pipeline.SizeWarning | src/main.rs:83-87 | the size warning is logged iff the narrowed configured size (or 512) is below 256, and the narrowed value is the size used downstream |
| Pipeline.Run | src/main.rs:82-117 | a successful run ends in an SVG write or a PNG raster, never in an unsupported format; an unsupported-format error names a format outside {svg, png}; a panic or error from preparation is passed on unchanged, a failed encoding is `QrEncodingFailed`, an encoded payload with an unsupported format is `UnsupportedFormat` of that format, and a PNG at size 0 is `PixmapUnavailable`; the log is preparation's, plus the low-quality warning exactly when a PNG export of size at most 256 is reached |
| Pipeline.Render | src/main.rs:104-113 | rendering fails exactly when encoding the payload fails |
| Pipeline.RenderFailsOnPayloadOnly | src/main.rs:104-113 | whether rendering fails does not depend on the size or the colours, only on the payload |
| Pipeline.StringSettingMismatchAbortsRun | src/main.rs:82-89 | a mistyped export format, foreground or background makes the whole run panic naming that path, the first in lookup order; a mistyped format panics with an empty log |
| Pipeline.RunRasters | src/main.rs:104-116 | once preparation succeeds with format `png` and a non-zero size and the payload encodes, the run plans a size×size raster at the output path with extension `png`; the exporter warning is set, and logged after preparation's diagnostics, exactly when the size is at most 256 |
| Pipeline.RunExportsIffSupported | src/main.rs:104-116 | a run plans a file action iff preparation and QR generation succeed, the format is supported and a PNG's size is not zero, and the file is the output path with the format as its extension |
| Pipeline.ZeroSizePngFails | src/image_ops.rs:82-88 | a PNG export at size 0 ends in the pixmap error, after the low-quality warning has been logged |
| Pipeline.PngWarnings | src/image_ops.rs:82-88 | a PNG run plans a `size × size` raster; the low-quality warning is logged iff `size <= 256`, and the size warning iff `size < 256` |
| Pipeline.HomeNetPayload | src/main.rs:97-102 | `("HomeNet", WPA, "hunter2")` gives `WIFI:S:HomeNet;T:WPA;P:hunter2;;` |
| Pipeline.ScenariosPrepared | src/main.rs:82-102 | the PNG document resolves to its configured `png` and 512 and logs only the two colour defaults; the JPG document has no size, so it takes the default 512; both default the colours and carry the `hunter2` payload |
| Pipeline.EndToEndPng | src/main.rs:82-116 | `HomeNet`, WPA, `hunter2`, size 512 and `png` plan a 512×512 PNG at `wifi.png` with no size warning |
| Pipeline.WifiPngExport | src/image_ops.rs:64-88 | `wifi.out` exported as a 512-pixel PNG becomes `wifi.png`, with no low-quality warning |
| Pipeline.EndToEndJpg | src/image_ops.rs:64-68 | format `jpg` ends in an unsupported-format error, with no file action |

## Left out

- Reading the configuration file and parsing the TOML text (`read_config`, `toml::from_str`): I/O and a foreign parser. The model starts from the parsed `Value` tree. TOML floats, datetimes and arrays are not represented. Any of them behaves like `Bool` in both lookups and in the password index, so `Bool` stands for all of them: `size = 512.0` falls back to 512, and `export = ["png"]` panics.
- Logger initialisation, informational (`info!`) log lines and command-line parsing: external collaborators. The SSID, encryption and output path arrive as an `Args` value.
- QR matrix generation at error-correction level H and the SVG renderer: a foreign library. These appear as the `Renderer` parameter of `Run`. Its `encode` returns `None` when encoding fails, and its `draw` always yields SVG text. The encoder is applied to the payload string rather than to its UTF-8 bytes; the encoding is injective (`Utf8.EncodeInjective`), so nothing is lost.
- Rasterisation and PNG encoding (`usvg`, `resvg`, `tiny_skia`): a foreign rendering engine with floating-point internals. Only the dimensions of the pixmap are kept.
- ImageOps.LoadSvg: models only the zero-size refusal of `Pixmap::new`. It does not model SVG parse failures or allocation limits for very large sizes, which depend on the rendering library.
- File creation and writing, and their I/O errors: the plan names the file and its contents.
- ImageOps.WithExtension: paths are a directory part plus an optional final name. Trailing separators, `.` components and non-UTF-8 names are not modelled.
- Wifi.ToUpper: upper-cases ASCII letters only. Rust's `to_uppercase` is Unicode-aware, but it is only applied to the three fixed ASCII tokens.
- Both lookups take the document by shared reference and leave it unchanged. In the model this holds by construction, since `Value` is immutable, so there is nothing to state.

=== FILE: base.dfy ===
/**
  Shared vocabulary: an Option type, the fixed-width integer types the
  program uses (`u8`, `u32`, `i64`), and searching a sequence for an element.
 */
module Base {

  /** Rust's `Option`: a value that may be absent. */
  datatype Option<+T> = None | Some(value: T)

  /** Rust's `u8`: one byte of a UTF-8 encoded string. */
  type byte = x: int | 0 <= x < 0x100

  /** Rust's `u32`: the image size handed to the renderer and the exporter. */
  type u32 = x: int | 0 <= x < 0x1_0000_0000

  /** Rust's `i64`: the integer type of a TOML value. */
  type i64 = x: int | -0x8000_0000_0000_0000 <= x < 0x8000_0000_0000_0000

  /** Position of the first occurrence of `x` in `s`, if any. */
  function IndexOf<T(==)>(s: seq<T>, x: T): (r: Option<nat>)
    ensures r.Some? ==> r.value < |s| && s[r.value] == x && x !in s[..r.value]
    ensures r.None? <==> x !in s
    decreases |s|
  {
    if |s| == 0 then None
    else if s[0] == x then Some(0)
    else
      match IndexOf(s[1..], x)
      case None => None
      case Some(i) =>
        assert s[1..][..i] == s[1..i + 1];
        assert s[..i + 1] == [s[0]] + s[1..i + 1];
        Some(i + 1)
  }

  /** Position of the last occurrence of `x` in `s`, if any. */
  function LastIndexOf<T(==)>(s: seq<T>, x: T): (r: Option<nat>)
    ensures r.Some? ==> r.value < |s| && s[r.value] == x && x !in s[r.value + 1..]
    ensures r.None? <==> x !in s
    decreases |s|
  {
    if |s| == 0 then None
    else if s[|s| - 1] == x then Some(|s| - 1)
    else
      match LastIndexOf(s[..|s| - 1], x)
      case None =>
        assert s == s[..|s| - 1] + [s[|s| - 1]];
        None
      case Some(i) =>
        assert s[i + 1..] == s[..|s| - 1][i + 1..] + [s[|s| - 1]];
        Some(i)
  }

  /** The first occurrence of `x` in `p + [x] + q` is right after `p` when `p` does not contain it. */
  lemma {:induction false} IndexOfAfterPrefix<T>(p: seq<T>, x: T, q: seq<T>)
    requires x !in p
    ensures IndexOf(p + [x] + q, x) == Some(|p|)
  {
    var s := p + [x] + q;
    assert s[|p|] == x;
    assert forall j :: 0 <= j < |p| ==> s[j] == p[j];
  }

  /** The last occurrence of `x` in `p + [x] + q` is right after `p` when `q` does not contain it. */
  lemma {:induction false} LastIndexOfBeforeSuffix<T>(p: seq<T>, x: T, q: seq<T>)
    requires x !in q
    ensures LastIndexOf(p + [x] + q, x) == Some(|p|)
  {
    var s := p + [x] + q;
    assert s[|p|] == x;
    assert forall j :: |p| < j < |s| ==> s[j] == q[j - |p| - 1];
  }
}

=== FILE: config.dfy ===
/**
  Typed lookups in a parsed TOML document (`src/get_config.rs`).

  Both lookups read `doc[section][key]`. They differ on a value of the wrong
  type: the string lookup fails (`get_config_str` panics), while the integer lookup
  falls back to the default exactly as if the key were missing.
 */
module Config {
  import opened Base
  import opened Diagnostics

  /** A parsed TOML value, restricted to the kinds the program reads. */
  datatype Value =
    | Str(s: string)
    | Int(i: i64)
    | Bool(b: bool)
    | Table(entries: map<string, Value>)

  /** `toml::Value::get` with a string index: only a table has entries. */
  function Get(v: Value, key: string): (r: Option<Value>)
    ensures r.Some? <==> v.Table? && key in v.entries
    ensures r.Some? ==> r.value == v.entries[key]
  {
    match v
    case Table(entries) => if key in entries then Some(entries[key]) else None
    case _ => None
  }

  /** `doc.get(section).and_then(|k| k.get(key))`: the two-level path. */
  function At(doc: Value, section: string, key: string): (r: Option<Value>)
    ensures r.Some? <==>
      && doc.Table? && section in doc.entries
      && doc.entries[section].Table? && key in doc.entries[section].entries
    ensures r.Some? ==> r.value == doc.entries[section].entries[key]
  {
    match Get(doc, section)
    case None => None
    case Some(t) => Get(t, key)
  }

  /** The outcome of one typed lookup. */
  datatype Lookup<T> =
      /** The value stored at the path. */
    | Found(value: T)
      /** The caller's default, with the diagnostic that was logged for it. */
    | Defaulted(value: T, diagnostic: Diagnostic)
      /** A value of the wrong type was stored at `section.key` (`get_config_str` panics). */
    | Failed(section: string, key: string)
  {
    /** What the lookup logged: one line exactly when it fell back. */
    function Log(): (log: seq<Diagnostic>)
      ensures |log| == (if Defaulted? then 1 else 0)
    {
      if Defaulted? then [diagnostic] else []
    }
  }

  /** `get_config_str`. */
  function GetConfigStr(doc: Value, section: string, key: string, default: string): (r: Lookup<string>)
    ensures r.Found? <==> At(doc, section, key).Some? && At(doc, section, key).value.Str?
    ensures r.Found? ==> At(doc, section, key) == Some(Str(r.value))
    ensures r.Defaulted? <==> At(doc, section, key).None?
    ensures r.Defaulted? ==> r.value == default && r.diagnostic == MissingString(section, key, default)
    ensures r.Failed? ==> r.section == section && r.key == key
  {
    match At(doc, section, key)
    case Some(v) => if v.Str? then Found(v.s) else Failed(section, key)
    case None => Defaulted(default, MissingString(section, key, default))
  }

  /** `get_config_int`. */
  function GetConfigInt(doc: Value, section: string, key: string, default: i64): (r: Lookup<i64>)
    ensures !r.Failed?
    ensures r.Found? <==> At(doc, section, key).Some? && At(doc, section, key).value.Int?
    ensures r.Found? ==> At(doc, section, key) == Some(Int(r.value))
    ensures r.Defaulted? ==> r.value == default && r.diagnostic == MissingInteger(section, key, default)
  {
    match At(doc, section, key)
    case Some(Int(i)) => Found(i)
    case _ => Defaulted(default, MissingInteger(section, key, default))
  }

  /**
    The two lookups disagree on a stored value that is neither a string nor
    an integer: the string lookup fails and never yields the default, while
    the integer lookup yields the default with one diagnostic.
   */
  lemma MismatchPolicies(doc: Value, section: string, key: string, s: string, i: i64)
    requires At(doc, section, key).Some?
    requires At(doc, section, key).value.Bool? || At(doc, section, key).value.Table?
    ensures GetConfigStr(doc, section, key, s) == Failed(section, key)
    ensures GetConfigInt(doc, section, key, i) == Defaulted(i, MissingInteger(section, key, i))
  {
  }

  /** A document holding one section with one entry, as the unit tests build them. */
  function Single(section: string, key: string, v: Value): (doc: Value)
    ensures At(doc, section, key) == Some(v)
  {
    Table(map[section := Table(map[key := v])])
  }

  /** Unit tests `test_get_config_str_found` and `test_get_config_str_default`. */
  lemma StrFoundIgnoresDefault(section: string, key: string, stored: string, default: string)
    ensures GetConfigStr(Single(section, key, Str(stored)), section, key, default) == Found(stored)
  {
  }

  /** Unit test `test_get_config_str_not_found`: another key of the section is present. */
  lemma StrNotFoundUsesDefault(section: string, key: string, other: string, i: i64, default: string)
    requires other != key
    ensures GetConfigStr(Single(section, other, Int(i)), section, key, default)
      == Defaulted(default, MissingString(section, key, default))
  {
  }

  /** Unit test `test_get_config_str_invalid_type`: an integer where a string is expected. */
  lemma StrWrongTypeFails(section: string, key: string, i: i64, default: string)
    ensures GetConfigStr(Single(section, key, Int(i)), section, key, default).Failed?
  {
  }

  /** Unit tests `test_get_config_int_found` and `test_get_config_int_default`. */
  lemma IntFoundIgnoresDefault(section: string, key: string, stored: i64, default: i64)
    ensures GetConfigInt(Single(section, key, Int(stored)), section, key, default) == Found(stored)
  {
  }

  /** Unit test `test_get_config_int_not_found`. */
  lemma IntNotFoundUsesDefault(section: string, key: string, other: string, s: string, default: i64)
    requires other != key
    ensures GetConfigInt(Single(section, other, Str(s)), section, key, default)
      == Defaulted(default, MissingInteger(section, key, default))
  {
  }
}

=== FILE: diagnostics.dfy ===
/**
  The warn- and error-level log lines the pipeline emits. The process-wide
  logger is replaced by a sequence of these records that each stage returns.
 */
module Diagnostics {
  import opened Base

  datatype Diagnostic =
      /** `get_config_str` found nothing at `section.key` and used `default`. */
    | MissingString(section: string, key: string, default: string)
      /** `get_config_int` found no integer at `section.key` and used `intDefault`. */
    | MissingInteger(section: string, key: string, intDefault: i64)
      /** `main` resolved an image size below 256. */
    | SizeBelow256(size: u32)
      /** `save_image` was asked for a PNG of at most 256 pixels a side. */
    | LowQualityPng(size: u32)
}

=== FILE: image_ops.dfy ===
/**
  The export decision of `save_image` (`src/image_ops.rs`), as a plan with no
  I/O: reject an unsupported format, or name the file to write and what goes
  into it. Rendering an SVG document to pixels is reduced to the size of the
  pixmap it produces.
 */
module ImageOps {
  import opened Base
  import Utf8

  /**
    A path split into everything before its final component and that final
    component (`Path::file_name`), which is `None` for a path that has no file
    name, such as an empty path, `/` or one ending in `..`.
   */
  datatype FilePath = FilePath(dir: string, name: Option<string>)

  /**
    `Path::file_stem` of a file name: everything before the last `.`, unless
    that `.` is the first character (a hidden file such as `.profile`) or
    there is none, when it is the whole name.
   */
  function Stem(name: string): (stem: string)
    ensures name != "" ==> stem != ""
    ensures stem <= name
    ensures stem == name <==> forall i :: 0 < i < |name| ==> name[i] != '.'
    ensures stem != name ==> stem != "" && name[|stem|] == '.' && '.' !in name[|stem| + 1..]
  {
    match LastIndexOf(name, '.')
    case None => name
    case Some(i) => if i == 0 then name else name[..i]
  }

  /** `Path::extension` of a file name: what follows the last `.`, under the rule of `Stem`. */
  function Extension(name: string): (x: Option<string>)
    ensures x.Some? ==> '.' !in x.value
    ensures x.None? <==> forall i :: 0 < i < |name| ==> name[i] != '.'
  {
    match LastIndexOf(name, '.')
    case None => None
    case Some(i) => if i == 0 then None else Some(name[i + 1..])
  }

  /** A file name is its stem followed by `.` and its extension, when it has one. */
  lemma StemAndExtensionSplitName(name: string)
    ensures name == Stem(name) + (match Extension(name) case None => "" case Some(x) => "." + x)
  {
    match LastIndexOf(name, '.')
    case None =>
    case Some(i) =>
      if i > 0 {
        assert name == name[..i] + "." + name[i + 1..];
      }
  }

  /**
    `Path::with_extension`: the final component is cut back to its stem and,
    for a non-empty extension, `.` and the extension are appended. A path
    without a file name is returned unchanged.
   */
  function WithExtension(p: FilePath, ext: string): (q: FilePath)
    ensures q.dir == p.dir
    ensures q.name.None? <==> p.name.None?
  {
    match p.name
    case None => p
    case Some(n) => FilePath(p.dir, Some(Stem(n) + (if ext == "" then "" else "." + ext)))
  }

  /**
    Replacing the extension keeps the directory and the stem, and leaves
    exactly the new extension behind.
   */
  lemma WithExtensionReplaces(p: FilePath, ext: string)
    requires p.name.Some? && p.name.value != ""
    requires ext != "" && '.' !in ext
    ensures var q := WithExtension(p, ext);
      && q.dir == p.dir
      && q.name.Some?
      && Stem(q.name.value) == Stem(p.name.value)
      && Extension(q.name.value) == Some(ext)
  {
    var stem := Stem(p.name.value);
    var n := stem + ['.'] + ext;
    assert WithExtension(p, ext).name.value == stem + ("." + ext) == n;
    LastIndexOfBeforeSuffix(stem, '.', ext);
    assert n[..|stem|] == stem;
    assert n[|stem| + 1..] == ext;
  }

  /** Setting the same extension a second time changes nothing. */
  lemma WithExtensionIdempotent(p: FilePath, ext: string)
    requires p.name.Some? && p.name.value != ""
    requires ext != "" && '.' !in ext
    ensures WithExtension(WithExtension(p, ext), ext) == WithExtension(p, ext)
  {
    WithExtensionReplaces(p, ext);
  }

  /** `file_stem` on a multi-dot, an extension-less and a hidden name. */
  lemma StemExamples()
    ensures Stem("qr.tar.gz") == "qr.tar"
    ensures Stem("qr") == "qr"
    ensures Stem(".qr") == ".qr"
  {
    assert Stem("qr.tar.gz") == "qr.tar" by {
      LastIndexOfBeforeSuffix("qr.tar", '.', "gz");
      assert "qr.tar" + ['.'] + "gz" == "qr.tar.gz";
      assert "qr.tar.gz"[..6] == "qr.tar";
    }
    assert Stem("qr") == "qr" by {
      assert '.' !in "qr";
    }
    assert Stem(".qr") == ".qr" by {
      LastIndexOfBeforeSuffix("", '.', "qr");
      assert "" + ['.'] + "qr" == ".qr";
    }
  }

  /** Examples of the extension rewrite on multi-dot, extension-less and hidden names. */
  lemma WithExtensionExamples()
    ensures WithExtension(FilePath("out/", Some("qr.tar.gz")), "png") == FilePath("out/", Some("qr.tar.png"))
    ensures WithExtension(FilePath("", Some("qr")), "svg") == FilePath("", Some("qr.svg"))
    ensures WithExtension(FilePath("", Some(".qr")), "svg") == FilePath("", Some(".qr.svg"))
    ensures WithExtension(FilePath("/", None), "svg") == FilePath("/", None)
  {
    StemExamples();
    assert "qr.tar" + ("." + "png") == "qr.tar.png";
    assert "qr" + ("." + "svg") == "qr.svg";
    assert ".qr" + ("." + "svg") == ".qr.svg";
  }

  /** `SUPPORTED_FORMATS`. */
  const SupportedFormats: seq<string> := ["svg", "png"]

  /** A raster surface; only its dimensions are modelled. */
  datatype Pixmap = Pixmap(width: nat, height: nat)

  /**
    `load_svg`: the document is drawn with the identity transform onto a
    `size` by `size` pixmap. `Pixmap::new` refuses a zero dimension, so a
    zero size yields no pixmap ("Failed to create a new Pixmap").
   */
  function LoadSvg(contents: seq<byte>, size: u32): (p: Option<Pixmap>)
    ensures p.Some? <==> size > 0
    ensures p.Some? ==> p.value.width == size && p.value.height == size
  {
    if size == 0 then None else Some(Pixmap(size, size))
  }

  /** What `save_image` does. */
  datatype ExportAction =
      /** Fail with "Unsupported image format" before touching any file. */
    | Unsupported(format: string)
      /** Create `path` and write `bytes` to it. */
    | WriteSvg(path: FilePath, bytes: seq<byte>)
      /** Rasterise to `pixmap` and save it as PNG at `path`, after logging a warning if asked to. */
    | RasterPng(path: FilePath, pixmap: Pixmap, lowQualityWarning: bool)
      /** Fail with "Failed to create a new Pixmap" before touching `path`, after logging a warning if asked to. */
    | PixmapFailed(path: FilePath, lowQualityWarning: bool)

  /** `save_image(output, format, image, size)` as a decision. */
  function SaveImage(output: FilePath, format: string, image: string, size: u32): (a: ExportAction)
    ensures a.Unsupported? <==> format !in SupportedFormats
    ensures a.Unsupported? ==> a.format == format
    ensures !a.Unsupported? ==> a.path == WithExtension(output, format)
    ensures a.WriteSvg? <==> format == "svg"
    ensures a.WriteSvg? ==> Utf8.Decode(a.bytes) == Some(image)
    ensures a.RasterPng? <==> format == "png" && size > 0
    ensures a.PixmapFailed? <==> format == "png" && size == 0
    ensures a.RasterPng? ==> a.pixmap.width == size && a.pixmap.height == size
    ensures a.RasterPng? || a.PixmapFailed? ==> (a.lowQualityWarning <==> size <= 256)
  {
    if format !in SupportedFormats then
      Unsupported(format)
    else
      var path := WithExtension(output, format);
      var bytes := Utf8.Encode(image);
      Utf8.DecodeEncode(image);
      if format == "svg" then
        WriteSvg(path, bytes)
      else if format == "png" then
        match LoadSvg(bytes, size)
        case None => PixmapFailed(path, size <= 256)
        case Some(pixmap) => RasterPng(path, pixmap, size <= 256)
      else
        // `save_image`'s `_` arm: the format check has already excluded it
        assert false; Unsupported(format)
  }

  /** A format check is exact: a differently-cased name is refused. */
  lemma FormatIsCaseSensitive(output: FilePath, image: string, size: u32)
    ensures SaveImage(output, "SVG", image, size) == Unsupported("SVG")
    ensures SaveImage(output, "jpg", image, size) == Unsupported("jpg")
  {
  }
}

=== FILE: pipeline.dfy ===
/**
  The body of `main` in `src/main.rs` from configuration resolution to the
  export decision. Reading the configuration file, parsing TOML, the QR
  encoder and the SVG renderer are outside the model: the document arrives
  parsed and the encoder/renderer is a function parameter.
 */
module Pipeline {
  import opened Base
  import opened Diagnostics
  import opened Config
  import opened Wifi
  import opened ImageOps

  /** `Consts`: the fallbacks for the optional configuration keys. */
  const FORMAT: string := "svg"
  const BACKGROUND: string := "#000000"
  const FOREGROUND: string := "#ffffff"
  const SIZE: u32 := 512

  /** Rust's `i64 as u32`: keeps the low 32 bits of the two's-complement value. */
  function AsU32(x: i64): (r: u32)
    ensures (r - x) % 0x1_0000_0000 == 0
    ensures 0 <= x ==> r <= x
    ensures 0 <= x < 0x1_0000_0000 ==> r == x
    ensures -0x1_0000_0000 <= x < 0 ==> r == x + 0x1_0000_0000
  {
    x % 0x1_0000_0000
  }

  /** Why a run stops. */
  datatype Fault =
      /** `get_config_str` met a non-string value at `section.key`. */
    | WrongType(section: string, key: string)
      /** Indexing `config["qrcode"]["password"]` found nothing ("index not found"). */
    | PasswordMissing
      /** "Failed to get the password from the configuration file". */
    | PasswordNotString
      /** "Failed to generate the QR code". */
    | QrEncodingFailed
      /** "Unsupported image format". */
    | UnsupportedFormat(format: string)
      /** "Failed to create a new Pixmap". */
    | PixmapUnavailable

  /** A stage's result: a value, a panic, or an error returned from `main`. */
  datatype Outcome<T> = Ok(value: T) | Panic(fault: Fault) | Error(fault: Fault)

  /** A stage's result together with every diagnostic logged on the way. */
  datatype Trace<T> = Trace(outcome: Outcome<T>, log: seq<Diagnostic>)

  /** The resolved configuration. */
  datatype Settings = Settings(format: string, size: u32, foreground: string, background: string)

  /** Everything `main` has computed when it is ready to encode. */
  datatype Prepared = Prepared(settings: Settings, password: string, payload: string)

  /** A document whose string lookup at `section.key` does not fail. */
  predicate StrLookupSucceeds(doc: Value, section: string, key: string) {
    At(doc, section, key).None? || At(doc, section, key).value.Str?
  }

  /** `v` is what a string setting resolves to: the stored string, or the default when nothing is stored. */
  predicate ResolvesTo(doc: Value, section: string, key: string, default: string, v: string) {
    At(doc, section, key) == Some(Str(v)) || (At(doc, section, key).None? && v == default)
  }

  /** The document stores an integer at `qrcode.size`. */
  predicate SizeConfigured(doc: Value) {
    At(doc, "qrcode", "size").Some? && At(doc, "qrcode", "size").value.Int?
  }

  /** The integer `main` narrows to the image size: the stored integer, or 512 for anything else. */
  function ConfiguredSize(doc: Value): i64 {
    if SizeConfigured(doc) then At(doc, "qrcode", "size").value.i else SIZE
  }

  /** The diagnostic `d`, logged when nothing is stored at `section.key`. */
  function IfAbsent(doc: Value, section: string, key: string, d: Diagnostic): seq<Diagnostic> {
    if At(doc, section, key).None? then [d] else []
  }

  /** Among lookup diagnostics, the size warning is present exactly when it was added. */
  lemma WarningMembership(before: seq<Diagnostic>, after: seq<Diagnostic>, size: u32)
    requires forall i :: 0 <= i < |before| ==> !before[i].SizeBelow256?
    requires forall i :: 0 <= i < |after| ==> !after[i].SizeBelow256?
    ensures SizeBelow256(size) in before + (if size < 256 then [SizeBelow256(size)] else []) + after <==> size < 256
  {
    var all := before + (if size < 256 then [SizeBelow256(size)] else []) + after;
    if size < 256 {
      assert all[|before|] == SizeBelow256(size);
    } else {
      assert all == before + after;
    }
  }

  /**
    Resolves export format, size and colours in `main`'s order. A string
    setting of the wrong type panics; the warning about a small size is
    logged and the run goes on.
   */
  function ResolveSettings(doc: Value): (r: Trace<Settings>)
    ensures r.outcome.Ok? || r.outcome.Panic?
    ensures r.outcome.Ok? <==>
      && StrLookupSucceeds(doc, "qrcode", "export")
      && StrLookupSucceeds(doc, "colors", "foreground")
      && StrLookupSucceeds(doc, "colors", "background")
    ensures r.outcome.Panic? ==>
      r.outcome.fault == WrongType("qrcode", "export") || r.outcome.fault == WrongType("colors", "foreground")
      || r.outcome.fault == WrongType("colors", "background")
    ensures r.outcome.Ok? ==>
      && ResolvesTo(doc, "qrcode", "export", FORMAT, r.outcome.value.format)
      && r.outcome.value.size == AsU32(ConfiguredSize(doc))
      && ResolvesTo(doc, "colors", "foreground", FOREGROUND, r.outcome.value.foreground)
      && ResolvesTo(doc, "colors", "background", BACKGROUND, r.outcome.value.background)
    ensures r.outcome.Ok? ==> (r.log ==
      IfAbsent(doc, "qrcode", "export", MissingString("qrcode", "export", FORMAT))
      + (if SizeConfigured(doc) then [] else [MissingInteger("qrcode", "size", SIZE)])
      + (if AsU32(ConfiguredSize(doc)) < 256 then [SizeBelow256(AsU32(ConfiguredSize(doc)))] else [])
      + IfAbsent(doc, "colors", "foreground", MissingString("colors", "foreground", FOREGROUND))
      + IfAbsent(doc, "colors", "background", MissingString("colors", "background", BACKGROUND)))
    ensures r.outcome.Ok? ==> (SizeBelow256(r.outcome.value.size) in r.log <==> r.outcome.value.size < 256)
  {
    var format := GetConfigStr(doc, "qrcode", "export", FORMAT);
    if format.Failed? then
      Trace(Panic(WrongType(format.section, format.key)), [])
    else
      var sizeLookup := GetConfigInt(doc, "qrcode", "size", SIZE);
      var size := AsU32(sizeLookup.value);
      var warning := if size < 256 then [SizeBelow256(size)] else [];
      var foreground := GetConfigStr(doc, "colors", "foreground", FOREGROUND);
      if foreground.Failed? then
        Trace(Panic(WrongType(foreground.section, foreground.key)), format.Log() + sizeLookup.Log() + warning)
      else
        var background := GetConfigStr(doc, "colors", "background", BACKGROUND);
        var log := format.Log() + sizeLookup.Log() + warning + foreground.Log();
        if background.Failed? then
          Trace(Panic(WrongType(background.section, background.key)), log)
        else
          var settings := Settings(format.value, size, foreground.value, background.value);
          assert sizeLookup.Log() == (if SizeConfigured(doc) then [] else [MissingInteger("qrcode", "size", SIZE)]);
          assert sizeLookup.value == ConfiguredSize(doc);
          assert log + background.Log() == (format.Log() + sizeLookup.Log()) + warning + (foreground.Log() + background.Log());
          WarningMembership(format.Log() + sizeLookup.Log(), foreground.Log() + background.Log(), size);
          Trace(Ok(settings), log + background.Log())
  }

  /**
    `main` up to the payload: the settings, then the password, which has no
    default, then the `WIFI:` string.
   */
  function Prepare(doc: Value, ssid: string, encryption: Encryption): (r: Trace<Prepared>)
    ensures r.log == ResolveSettings(doc).log
    ensures r.outcome.Ok? ==> ResolveSettings(doc).outcome == Ok(r.outcome.value.settings)
    ensures r.outcome.Ok? ==> At(doc, "qrcode", "password") == Some(Str(r.outcome.value.password))
    ensures r.outcome.Ok? && ';' !in ssid ==>
      ParsePayload(r.outcome.value.payload) == Some(Credentials(ssid, encryption, r.outcome.value.password))
    ensures r.outcome.Panic? ==> r.outcome.fault.WrongType? || r.outcome.fault.PasswordMissing?
    ensures ResolveSettings(doc).outcome.Panic? ==> r.outcome == Panic(ResolveSettings(doc).outcome.fault)
    ensures r.outcome.Error? ==> r.outcome.fault == PasswordNotString
  {
    var resolved := ResolveSettings(doc);
    match resolved.outcome
    case Panic(f) => Trace(Panic(f), resolved.log)
    case Error(f) => Trace(Error(f), resolved.log)
    case Ok(settings) =>
      match At(doc, "qrcode", "password")
      case None => Trace(Panic(PasswordMissing), resolved.log)
      case Some(v) =>
        if !v.Str? then
          Trace(Error(PasswordNotString), resolved.log)
        else
          var payload := Payload(ssid, encryption, v.s);
          assert ';' !in ssid ==> ParsePayload(payload) == Some(Credentials(ssid, encryption, v.s)) by {
            if ';' !in ssid {
              ParsePayloadRoundTrip(ssid, encryption, v.s);
            }
          }
          Trace(Ok(Prepared(settings, v.s, payload)), resolved.log)
  }

  /** Once the settings resolve and a string password is stored, preparation succeeds with them. */
  lemma PrepareSucceeds(doc: Value, ssid: string, encryption: Encryption, settings: Settings, password: string)
    requires ResolveSettings(doc).outcome == Ok(settings)
    requires At(doc, "qrcode", "password") == Some(Str(password))
    ensures Prepare(doc, ssid, encryption)
      == Trace(Ok(Prepared(settings, password, Payload(ssid, encryption, password))), ResolveSettings(doc).log)
  {
  }

  /**
    With none of the optional keys present, every setting takes its `Consts`
    default and exactly one diagnostic is logged per missing key, naming the
    path and the default.
   */
  lemma PrepareDefaults(doc: Value, ssid: string, encryption: Encryption, password: string)
    requires At(doc, "qrcode", "export").None? && At(doc, "qrcode", "size").None?
    requires At(doc, "colors", "foreground").None? && At(doc, "colors", "background").None?
    requires At(doc, "qrcode", "password") == Some(Str(password))
    ensures Prepare(doc, ssid, encryption) == Trace(
      Ok(Prepared(Settings("svg", 512, "#ffffff", "#000000"), password, Payload(ssid, encryption, password))),
      [ MissingString("qrcode", "export", "svg"),
        MissingInteger("qrcode", "size", 512),
        MissingString("colors", "foreground", "#ffffff"),
        MissingString("colors", "background", "#000000") ])
  {
    ResolveDefaults(doc);
    PrepareSucceeds(doc, ssid, encryption, Settings("svg", 512, "#ffffff", "#000000"), password);
  }

  /** With none of the optional keys present, resolution yields the `Consts` and one diagnostic per key. */
  lemma ResolveDefaults(doc: Value)
    requires At(doc, "qrcode", "export").None? && At(doc, "qrcode", "size").None?
    requires At(doc, "colors", "foreground").None? && At(doc, "colors", "background").None?
    ensures ResolveSettings(doc) == Trace(
      Ok(Settings("svg", 512, "#ffffff", "#000000")),
      [ MissingString("qrcode", "export", "svg"),
        MissingInteger("qrcode", "size", 512),
        MissingString("colors", "foreground", "#ffffff"),
        MissingString("colors", "background", "#000000") ])
  {
    assert AsU32(ConfiguredSize(doc)) == 512;
  }

  /**
    With every key present and of the right type, the configured values are
    used, none of the defaults, and the only possible diagnostic is the size
    warning, issued exactly when the narrowed size is below 256.
   */
  lemma PrepareConfigured(doc: Value, ssid: string, encryption: Encryption,
                          format: string, n: i64, fg: string, bg: string, password: string)
    requires At(doc, "qrcode", "export") == Some(Str(format))
    requires At(doc, "qrcode", "size") == Some(Int(n))
    requires At(doc, "colors", "foreground") == Some(Str(fg))
    requires At(doc, "colors", "background") == Some(Str(bg))
    requires At(doc, "qrcode", "password") == Some(Str(password))
    ensures Prepare(doc, ssid, encryption) == Trace(
      Ok(Prepared(Settings(format, AsU32(n), fg, bg), password, Payload(ssid, encryption, password))),
      if AsU32(n) < 256 then [SizeBelow256(AsU32(n))] else [])
  {
    ResolveConfigured(doc, format, n, fg, bg);
    PrepareSucceeds(doc, ssid, encryption, Settings(format, AsU32(n), fg, bg), password);
  }

  /** With every optional key present and of the right type, resolution uses them and logs only the size warning. */
  lemma ResolveConfigured(doc: Value, format: string, n: i64, fg: string, bg: string)
    requires At(doc, "qrcode", "export") == Some(Str(format))
    requires At(doc, "qrcode", "size") == Some(Int(n))
    requires At(doc, "colors", "foreground") == Some(Str(fg))
    requires At(doc, "colors", "background") == Some(Str(bg))
    ensures ResolveSettings(doc) == Trace(
      Ok(Settings(format, AsU32(n), fg, bg)),
      if AsU32(n) < 256 then [SizeBelow256(AsU32(n))] else [])
  {
    assert SizeConfigured(doc) && ConfiguredSize(doc) == n;
  }

  /**
    The password has no default. Once the optional keys resolve, a missing
    password panics, a non-string one is an error, and a string one is what
    the payload carries, whatever the size turned out to be.
   */
  lemma PasswordRule(doc: Value, ssid: string, encryption: Encryption)
    requires StrLookupSucceeds(doc, "qrcode", "export")
    requires StrLookupSucceeds(doc, "colors", "foreground")
    requires StrLookupSucceeds(doc, "colors", "background")
    ensures var r := Prepare(doc, ssid, encryption);
      && (At(doc, "qrcode", "password").None? ==> r.outcome == Panic(PasswordMissing))
      && (At(doc, "qrcode", "password").Some? && !At(doc, "qrcode", "password").value.Str? ==>
            r.outcome == Error(PasswordNotString))
      && (At(doc, "qrcode", "password").Some? && At(doc, "qrcode", "password").value.Str? ==>
            r.outcome.Ok? && r.outcome.value.password == At(doc, "qrcode", "password").value.s
            && r.outcome.value.payload == Payload(ssid, encryption, r.outcome.value.password))
  {
  }

  /**
    A string setting of the wrong type aborts the run, even though it is
    cosmetic; nothing after it is looked up.
   */
  lemma StringSettingMismatchPanics(doc: Value)
    ensures !StrLookupSucceeds(doc, "qrcode", "export") ==>
      ResolveSettings(doc) == Trace(Panic(WrongType("qrcode", "export")), [])
    ensures StrLookupSucceeds(doc, "qrcode", "export") && !StrLookupSucceeds(doc, "colors", "foreground") ==>
      ResolveSettings(doc).outcome == Panic(WrongType("colors", "foreground"))
    ensures (StrLookupSucceeds(doc, "qrcode", "export") && StrLookupSucceeds(doc, "colors", "foreground")
             && !StrLookupSucceeds(doc, "colors", "background")) ==>
      ResolveSettings(doc).outcome == Panic(WrongType("colors", "background"))
  {
  }

  /**
    A size of the wrong type does not abort anything: whether resolution
    succeeds depends on the three string settings alone, the size silently
    becomes 512, and one diagnostic is logged for it.
   */
  lemma SizeMismatchDefaults(doc: Value)
    requires At(doc, "qrcode", "size").Some? && !SizeConfigured(doc)
    ensures var r := ResolveSettings(doc);
      && (r.outcome.Ok? <==>
            StrLookupSucceeds(doc, "qrcode", "export") && StrLookupSucceeds(doc, "colors", "foreground")
            && StrLookupSucceeds(doc, "colors", "background"))
      && (r.outcome.Panic? ==> r.outcome.fault != WrongType("qrcode", "size"))
      && (StrLookupSucceeds(doc, "qrcode", "export") ==> MissingInteger("qrcode", "size", 512) in r.log)
      && (r.outcome.Ok? ==> r.outcome.value.size == 512)
  {
  }

  /**
    Once the format resolves, the size warning is logged exactly when the
    configured integer (or 512), narrowed to 32 bits, is below 256; a
    negative size wraps to a large one and is not warned about.
   */
  lemma SizeWarning(doc: Value, ssid: string, encryption: Encryption)
    requires StrLookupSucceeds(doc, "qrcode", "export")
    ensures var n := ConfiguredSize(doc);
      var r := Prepare(doc, ssid, encryption);
      && (SizeBelow256(AsU32(n)) in r.log <==> AsU32(n) < 256)
      && (r.outcome.Ok? ==> r.outcome.value.settings.size == AsU32(n))
  {
  }

  /** Narrowing examples: wrap-around to a small size, and a negative size to a large one. */
  lemma NarrowingExamples()
    ensures AsU32(0x1_0000_0064) == 100
    ensures AsU32(-1) == 0xFFFF_FFFF
    ensures AsU32(0x1_0000_0000) == 0
  {
  }

  /** A QR symbol: its rows of dark (`true`) and light modules. */
  datatype QrCode = QrCode(modules: seq<seq<bool>>)

  /**
    The QR library. `encode` is `QrCode::with_error_correction_level` at
    level H on the payload, `None` when its UTF-8 bytes do not fit in a
    symbol (the encoding is injective, so a function of the string is a
    function of the bytes);
    `draw` is the SVG renderer's `build` for a minimum size and the dark and
    light colours, which cannot fail.
   */
  datatype Renderer = Renderer(encode: string -> Option<QrCode>, draw: (QrCode, u32, string, string) -> string)

  /**
    Encoding and rendering as `main` chains them: the payload is encoded, and the symbol is drawn at the resolved size with the
    foreground as dark and the background as light colour.
   */
  function Render(render: Renderer, payload: string, size: u32, dark: string, light: string): (svg: Option<string>)
    ensures svg.None? <==> render.encode(payload).None?
  {
    match render.encode(payload)
    case None => None
    case Some(code) => Some(render.draw(code, size, dark, light))
  }

  /**
    Whether rendering fails depends on the payload alone, never on the size
    or the colours: only the encoder can fail.
   */
  lemma RenderFailsOnPayloadOnly(render: Renderer, payload: string,
                                 size: u32, dark: string, light: string, size': u32, dark': string, light': string)
    ensures Render(render, payload, size, dark, light).None? <==> Render(render, payload, size', dark', light').None?
  {
  }

  /** The command-line arguments the core uses. */
  datatype Args = Args(ssid: string, encryption: Encryption, output: FilePath)

  /**
    Whether `render` succeeds on what preparation produced, that is, whether
    `main` reaches `save_image`.
   */
  predicate Renders(prep: Trace<Prepared>, render: Renderer) {
    && prep.outcome.Ok?
    && var s := prep.outcome.value.settings;
       Render(render, prep.outcome.value.payload, s.size, s.foreground, s.background).Some?
  }

  /** `main` from the configuration document to the export decision. */
  function Run(doc: Value, args: Args, render: Renderer): (r: Trace<ExportAction>)
    ensures r.outcome.Ok? ==> r.outcome.value.WriteSvg? || r.outcome.value.RasterPng?
    ensures r.outcome.Error? && r.outcome.fault.UnsupportedFormat? ==>
      r.outcome.fault.format !in SupportedFormats
    ensures var prep := Prepare(doc, args.ssid, args.encryption);
      r.log == prep.log +
        (if Renders(prep, render) && prep.outcome.value.settings.format == "png" && prep.outcome.value.settings.size <= 256
         then [LowQualityPng(prep.outcome.value.settings.size)] else [])
    ensures var prep := Prepare(doc, args.ssid, args.encryption);
      && (prep.outcome.Panic? ==> r.outcome == Panic(prep.outcome.fault))
      && (prep.outcome.Error? ==> r.outcome == Error(prep.outcome.fault))
      && (prep.outcome.Ok? && !Renders(prep, render) ==> r.outcome == Error(QrEncodingFailed))
      && (Renders(prep, render) && prep.outcome.value.settings.format !in SupportedFormats ==>
            r.outcome == Error(UnsupportedFormat(prep.outcome.value.settings.format)))
      && (Renders(prep, render) && prep.outcome.value.settings.format == "png" && prep.outcome.value.settings.size == 0 ==>
            r.outcome == Error(PixmapUnavailable))
  {
    var prep := Prepare(doc, args.ssid, args.encryption);
    match prep.outcome
    case Panic(f) => Trace(Panic(f), prep.log)
    case Error(f) => Trace(Error(f), prep.log)
    case Ok(p) =>
      match Render(render, p.payload, p.settings.size, p.settings.foreground, p.settings.background)
      case None => Trace(Error(QrEncodingFailed), prep.log)
      case Some(svg) =>
        var action := SaveImage(args.output, p.settings.format, svg, p.settings.size);
        var warning := if (action.RasterPng? || action.PixmapFailed?) && action.lowQualityWarning
                       then [LowQualityPng(p.settings.size)] else [];
        if action.Unsupported? then
          Trace(Error(UnsupportedFormat(action.format)), prep.log)
        else if action.PixmapFailed? then
          Trace(Error(PixmapUnavailable), prep.log + warning)
        else
          Trace(Ok(action), prep.log + warning)
  }

  /**
    A run ends in a file action exactly when preparation and encoding
    succeed, the resolved format is supported and, for PNG, the size is not
    zero; an unsupported format is an error with no file action, even though
    the QR code was generated.
   */
  lemma RunExportsIffSupported(doc: Value, args: Args, render: Renderer)
    ensures var prep := Prepare(doc, args.ssid, args.encryption);
      var r := Run(doc, args, render);
      && (r.outcome.Ok? <==>
            && Renders(prep, render)
            && prep.outcome.value.settings.format in SupportedFormats
            && !(prep.outcome.value.settings.format == "png" && prep.outcome.value.settings.size == 0))
      && (r.outcome.Ok? ==> r.outcome.value.path == WithExtension(args.output, prep.outcome.value.settings.format))
  {
  }

  /**
    A mistyped string setting aborts the whole run with a panic naming the
    first such path in lookup order, before anything is encoded or written.
   */
  lemma StringSettingMismatchAbortsRun(doc: Value, args: Args, render: Renderer)
    ensures !StrLookupSucceeds(doc, "qrcode", "export") ==>
      Run(doc, args, render) == Trace(Panic(WrongType("qrcode", "export")), [])
    ensures StrLookupSucceeds(doc, "qrcode", "export") && !StrLookupSucceeds(doc, "colors", "foreground") ==>
      Run(doc, args, render).outcome == Panic(WrongType("colors", "foreground"))
    ensures (StrLookupSucceeds(doc, "qrcode", "export") && StrLookupSucceeds(doc, "colors", "foreground")
             && !StrLookupSucceeds(doc, "colors", "background")) ==>
      Run(doc, args, render).outcome == Panic(WrongType("colors", "background"))
  {
    StringSettingMismatchPanics(doc);
  }

  /**
    A PNG export at size zero, which a configured 4294967296 narrows to,
    fails when the pixmap is allocated, after the low-quality warning.
   */
  lemma ZeroSizePngFails(doc: Value, args: Args, render: Renderer)
    requires Renders(Prepare(doc, args.ssid, args.encryption), render)
    requires Prepare(doc, args.ssid, args.encryption).outcome.value.settings.format == "png"
    requires Prepare(doc, args.ssid, args.encryption).outcome.value.settings.size == 0
    ensures var r := Run(doc, args, render);
      r.outcome == Error(PixmapUnavailable) && LowQualityPng(0) in r.log
  {
  }

  /**
    The two size thresholds differ: a PNG export is flagged as low quality at
    256 and below, the resolved size only below 256. At exactly 256 only the
    exporter warns.
   */
  lemma PngWarnings(doc: Value, args: Args, render: Renderer)
    requires Prepare(doc, args.ssid, args.encryption).outcome.Ok?
    requires Prepare(doc, args.ssid, args.encryption).outcome.value.settings.format == "png"
    ensures var p := Prepare(doc, args.ssid, args.encryption).outcome.value;
      var r := Run(doc, args, render);
      r.outcome.Ok? ==>
        && r.outcome.value.pixmap == Pixmap(p.settings.size, p.settings.size)
        && (LowQualityPng(p.settings.size) in r.log <==> p.settings.size <= 256)
        && (SizeBelow256(p.settings.size) in r.log <==> p.settings.size < 256)
  {
    var prep := Prepare(doc, args.ssid, args.encryption);
    var r := Run(doc, args, render);
    if r.outcome.Ok? {
      var s := prep.outcome.value.settings;
      assert Renders(prep, render);
      var extra := if s.size <= 256 then [LowQualityPng(s.size)] else [];
      assert r.log == prep.log + extra;
      assert ResolveSettings(doc).outcome == Ok(s);
      assert SizeBelow256(s.size) in prep.log <==> s.size < 256;
      assert SizeBelow256(s.size) !in extra;
      ResolutionLogsNoExportWarning(doc, s.size);
    }
  }

  /** Resolution never logs the exporter's low-quality warning: that one comes from `save_image`. */
  lemma ResolutionLogsNoExportWarning(doc: Value, size: u32)
    ensures LowQualityPng(size) !in ResolveSettings(doc).log
  {
    var format := GetConfigStr(doc, "qrcode", "export", FORMAT);
    var sizeLookup := GetConfigInt(doc, "qrcode", "size", SIZE);
    var foreground := GetConfigStr(doc, "colors", "foreground", FOREGROUND);
    var background := GetConfigStr(doc, "colors", "background", BACKGROUND);
    var all := format.Log() + sizeLookup.Log() + [SizeBelow256(AsU32(sizeLookup.value))] + foreground.Log() + background.Log();
    assert LowQualityPng(size) !in all;
  }

  /** A configuration for the end-to-end scenarios: a `[qrcode]` section only. */
  function QrcodeOnly(entries: map<string, Value>): (doc: Value)
    ensures forall key :: At(doc, "qrcode", key) == (if key in entries then Some(entries[key]) else None)
    ensures forall key :: At(doc, "colors", key).None?
  {
    Table(map["qrcode" := Table(entries)])
  }

  /** The document of the PNG scenario. */
  const PngScenario: Value := QrcodeOnly(map["export" := Str("png"), "size" := Int(512), "password" := Str("hunter2")])

  /** The document of the unsupported-format scenario. */
  const JpgScenario: Value := QrcodeOnly(map["export" := Str("jpg"), "password" := Str("hunter2")])

  /** The payload of both scenarios. */
  lemma HomeNetPayload()
    ensures Payload("HomeNet", Wpa, "hunter2") == "WIFI:S:HomeNet;T:WPA;P:hunter2;;"
  {
    WireTokenRoundTrip(Wpa, "WPA");
    PayloadWithToken("HomeNet", Wpa, "hunter2", "WPA");
  }

  /** Both scenarios resolve their settings and password: the colours fall back, the rest is configured. */
  lemma ScenariosPrepared()
    ensures var log := [MissingString("colors", "foreground", "#ffffff"), MissingString("colors", "background", "#000000")];
      && Prepare(PngScenario, "HomeNet", Wpa)
           == Trace(Ok(Prepared(Settings("png", 512, "#ffffff", "#000000"), "hunter2", "WIFI:S:HomeNet;T:WPA;P:hunter2;;")), log)
      && Prepare(JpgScenario, "HomeNet", Wpa).outcome
           == Ok(Prepared(Settings("jpg", 512, "#ffffff", "#000000"), "hunter2", "WIFI:S:HomeNet;T:WPA;P:hunter2;;"))
  {
    HomeNetPayload();
    PrepareConfiguredColoursMissing(PngScenario, "HomeNet", Wpa, "png", 512, "hunter2");
    assert At(JpgScenario, "qrcode", "size").None?;
    assert At(JpgScenario, "qrcode", "export") == Some(Str("jpg"));
  }

  /**
    With format, size and password configured and no `[colors]` entries, the
    colours take their defaults with one diagnostic each.
   */
  lemma PrepareConfiguredColoursMissing(doc: Value, ssid: string, encryption: Encryption,
                                        format: string, n: i64, password: string)
    requires At(doc, "qrcode", "export") == Some(Str(format))
    requires At(doc, "qrcode", "size") == Some(Int(n))
    requires At(doc, "colors", "foreground").None? && At(doc, "colors", "background").None?
    requires At(doc, "qrcode", "password") == Some(Str(password))
    ensures Prepare(doc, ssid, encryption) == Trace(
      Ok(Prepared(Settings(format, AsU32(n), "#ffffff", "#000000"), password, Payload(ssid, encryption, password))),
      (if AsU32(n) < 256 then [SizeBelow256(AsU32(n))] else [])
        + [MissingString("colors", "foreground", "#ffffff"), MissingString("colors", "background", "#000000")])
  {
    var r := ResolveSettings(doc);
    assert SizeConfigured(doc) && ConfiguredSize(doc) == n;
    assert r.outcome == Ok(Settings(format, AsU32(n), "#ffffff", "#000000"));
    assert IfAbsent(doc, "qrcode", "export", MissingString("qrcode", "export", FORMAT)) == [];
    PrepareSucceeds(doc, ssid, encryption, r.outcome.value, password);
  }

  /** The end-to-end scenario: `HomeNet`, WPA, `hunter2`, size 512, format `png` plans a 512 by 512 PNG. */
  lemma EndToEndPng(dir: string, render: Renderer)
    requires render.encode("WIFI:S:HomeNet;T:WPA;P:hunter2;;").Some?
    ensures Run(PngScenario, Args("HomeNet", Wpa, FilePath(dir, Some("wifi.out"))), render)
      == Trace(Ok(RasterPng(FilePath(dir, Some("wifi.png")), Pixmap(512, 512), false)),
               [MissingString("colors", "foreground", "#ffffff"), MissingString("colors", "background", "#000000")])
  {
    ScenariosPrepared();
    var prep := Prepare(PngScenario, "HomeNet", Wpa);
    var p := prep.outcome.value;
    var svg := Render(render, p.payload, p.settings.size, p.settings.foreground, p.settings.background).value;
    WifiPngExport(dir, svg);
    RunRasters(PngScenario, Args("HomeNet", Wpa, FilePath(dir, Some("wifi.out"))), render);
    assert prep.log + [] == prep.log;
  }

  /**
    Once preparation succeeds with format `png` and a non-zero size and the
    symbol is drawn, the run plans that raster, warning exactly at 256 and below.
   */
  lemma RunRasters(doc: Value, args: Args, render: Renderer)
    requires Renders(Prepare(doc, args.ssid, args.encryption), render)
    requires Prepare(doc, args.ssid, args.encryption).outcome.value.settings.format == "png"
    requires Prepare(doc, args.ssid, args.encryption).outcome.value.settings.size > 0
    ensures var prep := Prepare(doc, args.ssid, args.encryption);
      var p := prep.outcome.value;
      Run(doc, args, render) == Trace(
        Ok(RasterPng(WithExtension(args.output, "png"), Pixmap(p.settings.size, p.settings.size), p.settings.size <= 256)),
        prep.log + (if p.settings.size <= 256 then [LowQualityPng(p.settings.size)] else []))
  {
  }

  /** `wifi.out` exported as PNG at 512 pixels becomes `wifi.png`, with no low-quality warning. */
  lemma WifiPngExport(dir: string, svg: string)
    ensures SaveImage(FilePath(dir, Some("wifi.out")), "png", svg, 512)
      == RasterPng(FilePath(dir, Some("wifi.png")), Pixmap(512, 512), false)
  {
    assert Stem("wifi.out") == "wifi" by {
      LastIndexOfBeforeSuffix("wifi", '.', "out");
      assert "wifi" + ['.'] + "out" == "wifi.out";
      assert "wifi.out"[..4] == "wifi";
    }
    assert "wifi" + ("." + "png") == "wifi.png";
  }

  /** The end-to-end scenario: format `jpg` fails as unsupported, with no file action. */
  lemma EndToEndJpg(output: FilePath, render: Renderer)
    requires render.encode("WIFI:S:HomeNet;T:WPA;P:hunter2;;").Some?
    ensures Run(JpgScenario, Args("HomeNet", Wpa, output), render).outcome == Error(UnsupportedFormat("jpg"))
  {
    ScenariosPrepared();
  }
}

=== FILE: utf8.dfy ===
/**
  UTF-8, the byte representation of a Rust `String`. `save_image` writes and
  rasterises `image.as_bytes()`, so the bytes of an SVG document are the
  UTF-8 encoding of its characters. `Decode` is the partner used to state that
  nothing is lost or altered on the way to the file.
 */
module Utf8 {
  import opened Base

  /** A continuation byte `10xxxxxx`. */
  predicate IsContinuation(b: byte) {
    0x80 <= b < 0xC0
  }

  /** The shortest UTF-8 encoding of one Unicode scalar value. */
  function EncodeChar(c: char): (bs: seq<byte>)
    ensures 1 <= |bs| <= 4
    ensures |bs| == 1 <==> (c as int) < 0x80
    ensures forall i :: 1 <= i < |bs| ==> IsContinuation(bs[i])
  {
    var n := c as int;
    if n < 0x80 then
      [n]
    else if n < 0x800 then
      [0xC0 + n / 0x40, 0x80 + n % 0x40]
    else if n < 0x1_0000 then
      [0xE0 + n / 0x1000, 0x80 + (n / 0x40) % 0x40, 0x80 + n % 0x40]
    else
      [0xF0 + n / 0x4_0000, 0x80 + (n / 0x1000) % 0x40, 0x80 + (n / 0x40) % 0x40, 0x80 + n % 0x40]
  }

  /** The UTF-8 encoding of a string: Rust's `str::as_bytes`. */
  function Encode(s: string): (bs: seq<byte>)
    ensures |s| <= |bs| <= 4 * |s|
    decreases |s|
  {
    if |s| == 0 then [] else EncodeChar(s[0]) + Encode(s[1..])
  }

  /**
    Reads one scalar value from the front of `bs`, rejecting overlong forms,
    surrogates and values beyond U+10FFFF; returns it with the number of
    bytes it occupied.
   */
  function DecodeChar(bs: seq<byte>): (r: Option<(char, nat)>)
    requires |bs| > 0
    ensures r.Some? ==> 1 <= r.value.1 <= |bs|
  {
    var b0: int := bs[0];
    if b0 < 0x80 then
      Some((b0 as char, 1))
    else if 0xC2 <= b0 < 0xE0 && |bs| >= 2 && IsContinuation(bs[1]) then
      var n := (b0 - 0xC0) * 0x40 + (bs[1] as int - 0x80);
      Some((n as char, 2))
    else if 0xE0 <= b0 < 0xF0 && |bs| >= 3 && IsContinuation(bs[1]) && IsContinuation(bs[2]) then
      var n := (b0 - 0xE0) * 0x1000 + (bs[1] as int - 0x80) * 0x40 + (bs[2] as int - 0x80);
      if 0x800 <= n && !(0xD800 <= n < 0xE000) then Some((n as char, 3)) else None
    else if 0xF0 <= b0 < 0xF5 && |bs| >= 4 && IsContinuation(bs[1]) && IsContinuation(bs[2]) && IsContinuation(bs[3]) then
      var n := (b0 - 0xF0) * 0x4_0000 + (bs[1] as int - 0x80) * 0x1000 + (bs[2] as int - 0x80) * 0x40 + (bs[3] as int - 0x80);
      if 0x1_0000 <= n < 0x11_0000 then Some((n as char, 4)) else None
    else
      None
  }

  /** Decodes a whole byte sequence, or `None` if it is not well-formed UTF-8. */
  function Decode(bs: seq<byte>): Option<string>
    decreases |bs|
  {
    if |bs| == 0 then Some([])
    else
      match DecodeChar(bs)
      case None => None
      case Some((c, k)) =>
        match Decode(bs[k..])
        case None => None
        case Some(s) => Some([c] + s)
  }

  /** Decoding the encoding of one character, followed by anything, reads that character back. */
  lemma DecodeEncodeChar(c: char, rest: seq<byte>)
    ensures DecodeChar(EncodeChar(c) + rest) == Some((c, |EncodeChar(c)|))
  {
    var n := c as int;
    if n < 0x80 {
    } else if n < 0x800 {
      DecodeTwoBytes(c, rest);
    } else if n < 0x1_0000 {
      DecodeThreeBytes(c, rest);
    } else {
      DecodeFourBytes(c, rest);
    }
  }

  lemma DecodeTwoBytes(c: char, rest: seq<byte>)
    requires 0x80 <= c as int < 0x800
    ensures DecodeChar(EncodeChar(c) + rest) == Some((c, 2))
  {
    var n := c as int;
    var hi, lo := n / 0x40, n % 0x40;
    assert n == hi * 0x40 + lo;
    var bs := EncodeChar(c) + rest;
    assert bs[0] == 0xC0 + hi && bs[1] == 0x80 + lo;
  }

  lemma DecodeThreeBytes(c: char, rest: seq<byte>)
    requires 0x800 <= c as int < 0x1_0000
    ensures DecodeChar(EncodeChar(c) + rest) == Some((c, 3))
  {
    var n := c as int;
    var m := n / 0x40;
    var b2 := n % 0x40;
    var b0, b1 := m / 0x40, m % 0x40;
    assert n == m * 0x40 + b2;
    assert m == b0 * 0x40 + b1;
    assert n / 0x1000 == b0;
    var bs := EncodeChar(c) + rest;
    assert bs[0] == 0xE0 + b0 && bs[1] == 0x80 + b1 && bs[2] == 0x80 + b2;
    assert n == b0 * 0x1000 + b1 * 0x40 + b2;
  }

  lemma DecodeFourBytes(c: char, rest: seq<byte>)
    requires 0x1_0000 <= c as int
    ensures DecodeChar(EncodeChar(c) + rest) == Some((c, 4))
  {
    var n := c as int;
    var m := n / 0x40;
    var b3 := n % 0x40;
    var k := m / 0x40;
    var b2 := m % 0x40;
    var b0, b1 := k / 0x40, k % 0x40;
    assert n == m * 0x40 + b3;
    assert m == k * 0x40 + b2;
    assert k == b0 * 0x40 + b1;
    assert n / 0x1000 == k;
    assert n / 0x4_0000 == b0;
    var bs := EncodeChar(c) + rest;
    assert bs[0] == 0xF0 + b0 && bs[1] == 0x80 + b1 && bs[2] == 0x80 + b2 && bs[3] == 0x80 + b3;
    assert n == b0 * 0x4_0000 + b1 * 0x1000 + b2 * 0x40 + b3;
  }

  /** The bytes of a string decode back to exactly that string. */
  lemma {:induction false} DecodeEncode(s: string)
    ensures Decode(Encode(s)) == Some(s)
    decreases |s|
  {
    if |s| > 0 {
      var head := EncodeChar(s[0]);
      var tail := Encode(s[1..]);
      DecodeEncodeChar(s[0], tail);
      assert (head + tail)[|head|..] == tail;
      DecodeEncode(s[1..]);
      assert [s[0]] + s[1..] == s;
    }
  }

  /** Different strings never share a byte representation. */
  lemma EncodeInjective(s: string, t: string)
    requires Encode(s) == Encode(t)
    ensures s == t
  {
    DecodeEncode(s);
    DecodeEncode(t);
  }
}

=== FILE: wifi.dfy ===
/**
  The WiFi-join payload built in `src/main.rs`: the `Encryption` tokens and
  the `WIFI:S:<ssid>;T:<token>;P:<password>;;` string. SSID and password are
  inserted without escaping; `ParsePayload` reads a payload back and is the
  partner used to state when that is still unambiguous.
 */
module Wifi {
  import opened Base

  /** The network's encryption; `Open` is Rust's `Encryption::None`. */
  datatype Encryption = Wpa | Wep | Open

  /**
    The `Display` text of an encryption. The two encrypted kinds print in
    upper case already; only the open network's `nopass` is changed by the
    upper-casing `main` applies.
   */
  function Token(e: Encryption): (t: string)
    ensures |t| > 0 && ';' !in t
    ensures ToUpper(t) == t <==> !e.Open?
  {
    match e
    case Wpa => "WPA"
    case Wep => "WEP"
    case Open =>
      assert ToUpper("nopass")[0] == 'N';
      "nopass"
  }

  /** Upper-cases an ASCII letter and leaves every other character alone. */
  function UpperChar(c: char): (u: char)
    ensures 'a' <= c <= 'z' ==> 'A' <= u <= 'Z' && u as int - c as int == 'A' as int - 'a' as int
    ensures !('a' <= c <= 'z') ==> u == c
  {
    if 'a' <= c <= 'z' then (c as int - 'a' as int + 'A' as int) as char else c
  }

  /**
    `str::to_uppercase`, restricted to ASCII letters; the strings it is
    applied to are the three fixed tokens, which are ASCII.
   */
  function ToUpper(s: string): (u: string)
    ensures |u| == |s|
    ensures forall i :: 0 <= i < |u| ==> !('a' <= u[i] <= 'z')
    ensures (forall i :: 0 <= i < |s| ==> !('a' <= s[i] <= 'z')) ==> u == s
    ensures forall i :: 0 <= i < |s| && 'a' <= s[i] <= 'z' ==> u[i] as int - s[i] as int == 'A' as int - 'a' as int
    ensures forall i :: 0 <= i < |s| && !('a' <= s[i] <= 'z') ==> u[i] == s[i]
  {
    seq(|s|, i requires 0 <= i < |s| => UpperChar(s[i]))
  }

  /** Upper-casing twice changes nothing more. */
  lemma ToUpperIdempotent(s: string)
    ensures ToUpper(ToUpper(s)) == ToUpper(s)
  {
  }

  /** The token as it appears in the payload: `encryption.to_string().to_uppercase()`. */
  function WireToken(e: Encryption): (t: string)
    ensures ';' !in t
    ensures e.Open? <==> t == "NOPASS"
  {
    var t := ToUpper(Token(e));
    assert t == (match e case Wpa => "WPA" case Wep => "WEP" case Open => "NOPASS");
    t
  }

  /** Reads a payload token back into an encryption. */
  function ParseToken(t: string): Option<Encryption> {
    if t == "WPA" then Some(Wpa)
    else if t == "WEP" then Some(Wep)
    else if t == "NOPASS" then Some(Open)
    else None
  }

  /** Every encryption has exactly one token and every recognised token names one encryption. */
  lemma WireTokenRoundTrip(e: Encryption, t: string)
    ensures ParseToken(t) == Some(e) <==> t == WireToken(e)
  {
    var w := WireToken(e);
    assert w == (match e case Wpa => "WPA" case Wep => "WEP" case Open => "NOPASS");
  }

  /** `format!("WIFI:S:{};T:{};P:{};;", ssid, token, password)`. */
  function Compose(ssid: string, token: string, password: string): string {
    "WIFI:S:" + ssid + ";T:" + token + ";P:" + password + ";;"
  }

  /** The middle piece of a three-part concatenation sits at the length of the first. */
  lemma Piece(x: string, y: string, z: string)
    ensures (x + y) + z == x + (y + z)
    ensures |x + y + z| == |x| + |y| + |z|
    ensures (x + y + z)[|x|..|x| + |y|] == y
  {
    assert (x + y + z)[|x|..|x| + |y|] == y;
  }

  /**
    The payload `main` encodes. SSID and password are inserted verbatim,
    whatever they contain: the SSID follows the 7-character prefix and the
    password precedes the closing `;;`.
   */
  function Payload(ssid: string, e: Encryption, password: string): (p: string)
    ensures |p| == 7 + |ssid| + 3 + |WireToken(e)| + 3 + |password| + 2
    ensures p[..7] == "WIFI:S:"
    ensures p[7..7 + |ssid|] == ssid
    ensures p[7 + |ssid|..10 + |ssid|] == ";T:"
    ensures p[10 + |ssid|..10 + |ssid| + |WireToken(e)|] == WireToken(e)
    ensures p[10 + |ssid| + |WireToken(e)|..13 + |ssid| + |WireToken(e)|] == ";P:"
    ensures p[|p| - 2 - |password|..|p| - 2] == password
    ensures p[|p| - 2..] == ";;"
  {
    var t := WireToken(e);
    var p := Compose(ssid, t, password);
    Piece("", "WIFI:S:", ssid + ";T:" + t + ";P:" + password + ";;");
    Piece("WIFI:S:", ssid, ";T:" + t + ";P:" + password + ";;");
    Piece("WIFI:S:" + ssid, ";T:", t + ";P:" + password + ";;");
    Piece("WIFI:S:" + ssid + ";T:", t, ";P:" + password + ";;");
    Piece("WIFI:S:" + ssid + ";T:" + t, ";P:", password + ";;");
    Piece("WIFI:S:" + ssid + ";T:" + t + ";P:", password, ";;");
    Piece("WIFI:S:" + ssid + ";T:" + t + ";P:" + password, ";;", "");
    p
  }

  /** What a scanner reads out of a payload. */
  datatype Credentials = Credentials(ssid: string, encryption: Encryption, password: string)

  /** Reads `P:<password>;;`. */
  function ParsePassword(tail: string): Option<string> {
    if |tail| < 4 || tail[..2] != "P:" || tail[|tail| - 2..] != ";;" then None
    else Some(tail[2..|tail| - 2])
  }

  /** Reads `T:<token>;P:<password>;;`: the token runs to the first `;`. */
  function ParseSecurity(s: string): Option<(Encryption, string)> {
    if |s| < 2 || s[..2] != "T:" then None
    else
      var t := s[2..];
      match IndexOf(t, ';')
      case None => None
      case Some(j) =>
        match (ParseToken(t[..j]), ParsePassword(t[j + 1..]))
        case (Some(e), Some(password)) => Some((e, password))
        case _ => None
  }

  /**
    Reads a payload: the SSID runs to the first `;`, the token to the next
    one, and the password is everything between `P:` and the closing `;;`.
   */
  function ParsePayload(p: string): Option<Credentials> {
    if |p| < 7 || p[..7] != "WIFI:S:" then None
    else
      var rest := p[7..];
      match IndexOf(rest, ';')
      case None => None
      case Some(i) =>
        match ParseSecurity(rest[i + 1..])
        case None => None
        case Some((e, password)) => Some(Credentials(rest[..i], e, password))
  }

  /**
    When the SSID contains no `;`, the payload can be read back into exactly
    the credentials it was built from; the password may contain anything.
   */
  lemma ParsePayloadRoundTrip(ssid: string, e: Encryption, password: string)
    requires ';' !in ssid
    ensures ParsePayload(Payload(ssid, e, password)) == Some(Credentials(ssid, e, password))
  {
    WireTokenRoundTrip(e, WireToken(e));
    ParseComposed(ssid, WireToken(e), e, password);
  }

  /** A composed payload reads back when neither SSID nor token contains `;` and the token is recognised. */
  lemma ParseComposed(ssid: string, token: string, e: Encryption, password: string)
    requires ';' !in ssid && ';' !in token
    requires ParseToken(token) == Some(e)
    ensures ParsePayload(Compose(ssid, token, password)) == Some(Credentials(ssid, e, password))
  {
    var security := "T:" + token + ";P:" + password + ";;";
    var rest := ssid + [';'] + security;
    var p := Compose(ssid, token, password);
    assert p == "WIFI:S:" + rest;
    assert p[..7] == "WIFI:S:" && p[7..] == rest;
    IndexOfAfterPrefix(ssid, ';', security);
    assert rest[|ssid| + 1..] == security;
    assert rest[..|ssid|] == ssid;
    ParseSecurityOf(token, e, password);
    assert IndexOf(rest, ';') == Some(|ssid|);
    assert ParseSecurity(rest[|ssid| + 1..]) == Some((e, password));
  }

  /** The part after the SSID reads back as the encryption and password it was built from. */
  lemma ParseSecurityOf(token: string, e: Encryption, password: string)
    requires ';' !in token
    requires ParseToken(token) == Some(e)
    ensures ParseSecurity("T:" + token + ";P:" + password + ";;") == Some((e, password))
  {
    var tail := "P:" + password + ";;";
    var t := token + [';'] + tail;
    var s := "T:" + t;
    assert "T:" + token + ";P:" + password + ";;" == s;
    assert s[..2] == "T:" && s[2..] == t;
    IndexOfAfterPrefix(token, ';', tail);
    assert t[|token| + 1..] == tail;
    assert t[..|token|] == token;
    ParsePasswordRoundTrip(password);
    assert IndexOf(t, ';') == Some(|token|);
    assert ParseToken(t[..|token|]) == Some(e);
    assert ParsePassword(t[|token| + 1..]) == Some(password);
  }

  /** The closing part reads back as the password, whatever it contains. */
  lemma ParsePasswordRoundTrip(password: string)
    ensures ParsePassword("P:" + password + ";;") == Some(password)
  {
    var tail := "P:" + password + ";;";
    assert tail[..2] == "P:";
    assert tail[|tail| - 2..] == ";;";
    assert tail[2..|tail| - 2] == password;
  }

  /** The text between SSID and password: `;T:<token>;P:`. */
  function SecurityField(e: Encryption): string {
    ";T:" + WireToken(e) + ";P:"
  }

  /** Moving a security field across the SSID/password boundary does not change the composed text. */
  lemma ComposeShift(x: string, field: string, y: string, token: string, z: string)
    requires field == ";T:" + token + ";P:"
    ensures Compose(x + field + y, token, z) == Compose(x, token, y + field + z)
  {
    assert Compose(x + field + y, token, z) == "WIFI:S:" + x + field + y + field + z + ";;";
    assert Compose(x, token, y + field + z) == "WIFI:S:" + x + field + y + field + z + ";;";
  }

  /**
    Without escaping, moving a `;T:<token>;P:` segment between the end of the
    SSID and the start of the password leaves the payload unchanged: two
    different credential triples share one payload, and a reader recovers
    the one whose SSID has no `;`, so a scanner can join the wrong network.
   */
  lemma UnescapedPayloadIsAmbiguous(x: string, y: string, z: string, e: Encryption)
    ensures Payload(x + SecurityField(e) + y, e, z) == Payload(x, e, y + SecurityField(e) + z)
    ensures ';' !in x ==>
      ParsePayload(Payload(x + SecurityField(e) + y, e, z)) == Some(Credentials(x, e, y + SecurityField(e) + z))
  {
    ComposeShift(x, SecurityField(e), y, WireToken(e), z);
    if ';' !in x {
      ParsePayloadRoundTrip(x, e, y + SecurityField(e) + z);
    }
  }

  /** A payload is the composition of its parts around the wire token. */
  lemma PayloadWithToken(ssid: string, e: Encryption, password: string, t: string)
    requires t == WireToken(e)
    ensures Payload(ssid, e, password) == Compose(ssid, t, password)
  {
  }

  /** The worked example: a WPA network is tagged `WPA`. */
  lemma PayloadExampleWpa()
    ensures Payload("MyNet", Wpa, "secret") == "WIFI:S:MyNet;T:WPA;P:secret;;"
  {
    WireTokenRoundTrip(Wpa, "WPA");
    PayloadWithToken("MyNet", Wpa, "secret", "WPA");
  }

  /** An unencrypted network is tagged `NOPASS`, the upper-cased `nopass`, and an empty password leaves `P:` empty. */
  lemma PayloadExampleOpen()
    ensures Payload("Cafe", Open, "") == "WIFI:S:Cafe;T:NOPASS;P:;;"
  {
    WireTokenRoundTrip(Open, "NOPASS");
    PayloadWithToken("Cafe", Open, "", "NOPASS");
  }
}
